=== FILE: README.md ===
# Banner rotation: selection policy and rotation store in Dafny

This project models the core of a banner-rotation service. The service picks,
for every request, which banner to show in a slot to an audience group. It
uses the UCB1 multi-armed-bandit policy over the accumulated shows and clicks
of every *rotation*. A rotation is one (banner, slot, group) key with its
counters. Each choice is recorded back in a database.

Modules, one per part of the program:

- `Wrappers` (`wrappers.dfy`): `Option` and `Result`. `Result` stands for Go's
  `(value, error)` pair.
- `Entities` (`entities.dfy`): the records of `internal/types/entities.go`.
  These are banner/slot/group, rotation, the rotation key, event types and the
  error values.
- `ArgMax` (`argmax.dfy`): the left-to-right selection scan both UCB1 versions
  share. The running maximum starts at 0, and a candidate replaces the current
  choice when its score is `>=` that maximum. The module also gives an
  independent "last maximal position" definition and proves the scan equal to
  it.
- `Bandit` (`bandit.dfy`): the live policy, `internal/rotators/mab/bandit.go`.
  It scores with +1 smoothing and returns a value. The module also holds the
  `MultiArmedBandit` object with `Load`/`Rotate`.
- `LegacyBandit` (`legacy_bandit.dfy`): the older policy, `internal/mab/bandit.go`.
  It clamps 0 to 1, works on pointers and increments the winner's `Shows`
  through its pointer. Pointers are positions in an explicit heap, so two
  slice entries may alias one record. The nil dereference on an empty slice is
  the outcome `NilDereference`.
- `Storage` (`storage.dfy`): `internal/storage/database.go` as a sequential
  state machine. It has entity tables with a deleted flag, the rotations
  table in insertion order (a row's serial id is its position) and the
  append-only event log. Each operation is a pure transition. An update
  that must touch a row fails and leaves the store unchanged when it
  touches none. This covers the entity and rotation deletes and the
  counter update of a show or click. The cascade update of an entity delete
  may touch zero rotations and still succeed. Empty reads of all rotations
  or of the total shows are not errors.
- `StoreProperties` (`store_properties.dfy`): properties across operations.
  These cover the history-only-grows relation over any sequence of writes,
  counter accounting, the delete cascade and the one-live-row-per-key
  invariant the store relies on but does not enforce.
- `App` (`app.go`'s logic, `app.dfy`): identifier generation for new
  entities, `RegisterClick`, and `ChooseBanner`. `ChooseBanner` reads the
  total shows and all live rotations, loads the rotator, rotates, and records
  a show for the winner.

The floating-point bound `clicks/n + sqrt(2·ln t / n)` is a parameter
`f: Formula` evaluated at `(n, clicks, t)`. The live policy scores a
rotation as `f(shows + 1, clicks, trials + 1)`. The legacy policy scores it
as `f(max(shows, 1), clicks, max(trials, 1))`. Where a property needs the
bound to be non-negative, as the real one is, the lemma says so with
`NonNegative(f)`.

Some failures from outside the model are explicit inputs: a failed read of
the total shows or of all rotations, a failed event insert, a failed
deletion transaction and a failed UUID generator. `Faults` covers the three
store calls of `ChooseBanner`. `appendFails` covers the event insert.
`txFails` covers an entity deletion transaction. `generated: Option<Uuid>` is
the result of `uuid.NewRandom`. The other store calls have no failure input;
"## Left out" lists them.

Behaviour of the code worth knowing, as the model states it:

- `ChooseBanner` returns the snapshot of the winner taken before its show
  is counted (internal/app/app.go:317,350). The show count it returns is
  the one read, not the incremented one.
- With no candidates, `UCB1` returns the zero rotation with nil
  identifiers (internal/rotators/mab/bandit.go:24-27,38). There is no
  separate "no candidates" error.
- `AddShow` on that nil key then fails with `sql.ErrNoRows`
  (internal/app/app.go:320-336). `ChooseBanner` returns `NoRows` with the
  store untouched.
- The candidate set and the trial count are system-wide. The caller's slot
  and group are only logged (`App.ChooseBannerIgnoresSlotAndGroup`).

## Model

| member | source | states |
|---|---|---|
| ArgMax.ScanFrom | internal/rotators/mab/bandit.go:29-36 | the scan's choice is either the choice it started with or a later position whose score reaches the running maximum |
| ArgMax.LastMax | internal/rotators/mab/bandit.go:24-38 | starting from maximum 0 and no choice, the scan picks nothing on empty input and otherwise only a position with a non-negative score |
| ArgMax.ScanFromFindsLastMax | internal/rotators/mab/bandit.go:29-36 | the scan keeps its current choice exactly when every remaining score is below the running maximum, otherwise it ends on the last maximal remaining position |
| ArgMax.LastMaxIsLastArgMax | internal/rotators/mab/bandit.go:24-38 | the scan chooses something iff some score is >= 0, and chooses k iff k is the last position of maximal score (both directions) |
| Bandit.Ucb1 | internal/rotators/mab/bandit.go:23-39 | empty input returns the zero rotation; otherwise the result is the zero rotation or one of the inputs |
| Bandit.Ucb1ChoosesLastMax | internal/rotators/mab/bandit.go:29-36 | with a non-negative bound and non-empty input the result is the input at the last index whose score is maximal; later indices score strictly less |
| Bandit.Ucb1IsMaximal | internal/rotators/mab/bandit.go:31-35 | the returned rotation is an input and scores at least as high as every input |
| Bandit.Ucb1EqualCountersPicksLast | internal/rotators/mab/bandit.go:30-32 | with a non-negative bound and non-empty input in which all rotations have the same shows and clicks, the last one is returned |
| Bandit.RotateAfterLoad | internal/rotators/mab/bandit.go:14-21 | Load keeps nothing of the earlier rotator state, and Rotate after Load(rs, t) is UCB1(rs, t) |
| LegacyBandit.AtLeastOne | internal/mab/bandit.go:34-36 | the clamp yields at least 1 and leaves positive values unchanged |
| LegacyBandit.Ucb1 | internal/mab/bandit.go:28-54 | empty input dereferences nil; when a pointer is returned, it is one of the inputs, its record gains exactly one show and every other record is unchanged |
| LegacyBandit.Ucb1ChoosesLastMax | internal/mab/bandit.go:38-50 | with a non-empty slice and a non-negative bound there is no panic and the pointer at the last maximal position is returned |
| LegacyBandit.ZeroTrialsScoredAsOne | internal/mab/bandit.go:34-36 | a trial count of 0 gives exactly the outcome of a trial count of 1 |
| LegacyBandit.ZeroShowsScoredAsOne | internal/mab/bandit.go:39-45 | a record with 0 shows scores exactly like the same record with 1 show |
| LegacyBandit.ZeroAndOneShowTieGoesLater | internal/mab/bandit.go:39-49 | with a non-negative bound, of two records differing only in 0 and 1 shows, the later pointer in the slice is chosen, in either order |
| Storage.AddEntity | internal/storage/database.go:141-152 | a reused identifier is refused with no change; otherwise the new entity reads back exactly and nothing else changes |
| Storage.GetEntity | internal/storage/database.go:154-175 | succeeds iff the row exists and is not deleted, returning its id and description; otherwise NoRows |
| Storage.DeleteEntity | internal/storage/database.go:177-208 | succeeds iff the transaction holds and the entity row exists; a failure changes nothing; success marks the entity and exactly the rotations referring to it deleted, whether or not any rotation matched |
| Storage.DeleteBanner | internal/storage/database.go:177-208 | succeeds iff the transaction holds and the banner exists; a failure changes nothing and reports the transaction or the missing row; success hides the banner and leaves no live rotation showing it |
| Storage.DeleteSlot | internal/storage/database.go:244-275 | the same for a slot and the rotations in that slot |
| Storage.DeleteGroup | internal/storage/database.go:312-343 | the same for a group and the rotations for that group |
| Storage.FindLive | internal/storage/database.go:111-115 | the lookup returns the first non-deleted row with the key, or none exists |
| Storage.GetRotationId | internal/storage/database.go:110-129 | returns the first non-deleted row with the key; fails with NoRows iff there is none |
| Storage.AddRotation | internal/storage/database.go:345-364 | appends one non-deleted row for the key with both counters 0 and keeps every earlier row; when the key had no live row, GetRotation then returns exactly the rotation returned |
| Storage.DeleteRotation | internal/storage/database.go:366-387 | succeeds iff some row (deleted or not) has the key; marks exactly those rows deleted, after which the key has no live row; a failure changes nothing |
| Storage.GetRotation | internal/storage/database.go:389-417 | fails with NoRows iff no live row has the key; otherwise returns a rotation with that key that GetAllRotations also returns |
| Storage.GetAllRotations | internal/storage/database.go:513-548 | a rotation is returned iff it is the reading of some non-deleted row |
| Storage.LiveRotations | internal/storage/database.go:526-545 | every non-deleted row's reading is in the result and every result element is such a reading |
| Storage.LiveShowsIsSumOfLive | internal/storage/database.go:550-565 | the summed query equals the sum of shows over what GetAllRotations returns |
| Storage.GetTotalShows | internal/storage/database.go:550-565 | the total is the sum of shows of the non-deleted rotations, and 0 when there are none |
| Storage.AddEventTimestamp | internal/storage/database.go:85-108 | a failed insert changes nothing; a successful one leaves rotations and tables alone, adds exactly the one event type to the statistics of its rotation and leaves every other rotation's statistics unchanged |
| Storage.Increment | internal/storage/database.go:463-465 | a show adds exactly one to shows and a click exactly one to clicks, nothing else changes |
| Storage.Record | internal/storage/database.go:457-483 | an absent or deleted key fails with no change; otherwise exactly the looked-up row gains one count, then one event is appended unless the append fails, and then the increment stays and an error is returned |
| Storage.AddShow | internal/storage/database.go:457-483 | as Record, for shows and show events |
| Storage.AddClick | internal/storage/database.go:485-511 | as Record, for clicks and click events |
| Storage.EventsOf | internal/storage/database.go:420-421 | an event type is listed iff some log entry for that rotation id has it |
| Storage.GetRotationStats | internal/storage/database.go:419-455 | fails iff the key has no live row; otherwise lists the types of exactly that row's events |
| StoreProperties.ApplyExtends | internal/storage/database.go:141-511 | every write keeps all rows and their keys, never lowers a counter, never clears a deleted flag and only appends to the event log |
| StoreProperties.RunExtends | internal/storage/database.go:141-511 | the same holds after any sequence of writes |
| StoreProperties.ApplyPreservesValid | internal/storage/database.go:110-129 | every write except an AddRotation for a key that already has a live row keeps one live row per key and events pointing at existing rows |
| StoreProperties.AddRotationPreservesValid | internal/storage/database.go:345-364 | adding the first live row for a key keeps one live row per key and every event pointing at an existing row |
| StoreProperties.AddRotationCanDuplicate | internal/storage/database.go:345-364 | AddRotation on a key that already has a live row leaves two live rows for it |
| StoreProperties.RecordAccounting | internal/storage/database.go:457-511 | a recorded show or click keeps the key's lookup and appends exactly its event type to the key's statistics unless the event insert fails; total shows grow by 1 for a show and 0 for a click |
| StoreProperties.AddShowAccounting | internal/storage/database.go:457-483 | AddShow raises total shows and the rotation's shows by exactly 1, keeps its clicks, and adds one show to its statistics |
| StoreProperties.AddClickAccounting | internal/storage/database.go:485-511 | AddClick raises the rotation's clicks by exactly 1, keeps total shows and its shows, and adds one click to its statistics |
| StoreProperties.DeleteEntityCascades | internal/storage/database.go:177-208 | after a successful entity delete the entity, and every rotation referring to it, is gone from GetEntity, GetRotation, GetRotationStats and GetAllRotations |
| StoreProperties.DeleteRotationTwice | internal/storage/database.go:366-387 | deleting an already soft-deleted key again succeeds and changes nothing |
| StoreProperties.ShowTimesCounts | internal/storage/database.go:457-483 | n successful shows on a live key raise total shows by exactly n |
| StoreProperties.TenShowsTotalTen | internal/storage/database_test.go:66-75 | one new rotation and ten shows give total shows 10 |
| StoreProperties.DeleteBannerScenario | internal/storage/database_test.go:82-95 | add a banner and a rotation for it, delete the banner: the rotation was readable before and afterwards neither it nor the banner is |
| App.AddEntity | internal/app/app.go:43-75 | a failed generator or a reused identifier returns an error and changes nothing; otherwise the entity returned is {id, description} and reading it back returns exactly that |
| App.GetEntity | internal/app/app.go:89-99 | `GetBanner` (and likewise `GetSlot`, `GetGroup`): found iff the row exists and is not deleted, returning its id and description; otherwise the store's NoRows |
| App.RegisterClick | internal/app/app.go:268-283 | has exactly the store effect of AddClick and returns its error unchanged |
| App.ChooseBanner | internal/app/app.go:285-351 | a failed read returns an error before any write; an error with a working event insert leaves the store unchanged; success raises total shows by exactly 1 and appends exactly one show event |
| App.ChooseBannerIgnoresSlotAndGroup | internal/app/app.go:285-317 | the caller's slot and group do not affect the outcome |
| App.ChooseBannerIgnoresRotatorState | internal/app/app.go:316-317 | the rotator's earlier state does not affect the outcome |
| App.ChooseBannerNoCandidates | internal/app/app.go:316-337 | with no live rotation the call fails (NoRows when the reads work) and the store is unchanged |
| App.WinnerIsCandidate | internal/app/app.go:316-317 | with a non-negative bound and a non-deleted rotation, the rotator's winner is one of the loaded candidates |
| App.ChooseBannerAppendFails | internal/app/app.go:320-336 | when the event insert fails after the counter update, the call returns the failure, no event is logged, and total shows still grow by exactly 1: the call is not failure-atomic |
| App.ChooseBannerSucceeds | internal/app/app.go:294-337 | with no fault, a non-negative bound and at least one non-deleted rotation, the choice succeeds and returns one of the candidates |
| App.ChooseBannerAccounting | internal/app/app.go:316-350 | with no fault, a non-negative bound, one live row per key and a live rotation: the choice succeeds, the winner is a candidate of maximal score, its row gains exactly one show with key, clicks and deleted flag kept, every other row is unchanged, one show event for that row is appended, and the returned rotation carries the pre-increment counters |

## Left out

- Floating-point scoring (`math.Sqrt`, `math.Log`, float division) is a parameter. Rounding, NaN and infinities are not modelled.
- Statistical behaviour over many calls is not modelled, e.g. "every banner is eventually shown" or "the most clicked banner is shown most". It needs real analysis.
- Concurrency is not modelled: races between concurrent choices, context timeouts and cancellation. Operations are sequential and atomic.
- SQL plumbing is not modelled: connecting, the explicit rollbacks and the test-only `CleanDB`.
- Row scanning is not modelled, and every scan is assumed to succeed. As written, that does not hold for the `SELECT *` reads:
  - `sqlx.Connect` (internal/storage/database.go:133) opens the connection in sqlx's default safe mode. In that mode `StructScan` rejects any selected column that has no field in the destination struct.
  - `SELECT *` also returns `deleted` and `deleted_at`, which the updates at internal/storage/database.go:179,183,368 write. For rotations it also returns `id` (internal/storage/database.go:112).
  - None of these columns is a field of `banner`, `slot`, `group` or `rotation` (internal/storage/models.go).
  - So, as written, `GetBanner`/`GetSlot`/`GetGroup` (internal/storage/database.go:156,224,291), `GetRotation` (internal/storage/database.go:396) and `GetAllRotations` with any live row (internal/storage/database.go:514) return an error.
  - As a result, `ChooseBanner` cannot succeed as written. This follows from sqlx's `StructScan`, which rejects unmapped columns unless the connection is put in unsafe mode, and this code never does so. The model describes the behaviour the reads evidently intend.
- Event timestamps (`now()`) are not modelled; the log keeps order only.
- Row order is modelled as insertion order. This covers `GetAllRotations`, the row `GetRotationID` picks and the order of `GetRotationStats`; SQL does not guarantee any of them.
- Integer widths are not modelled: counters, trial counts and totals are unbounded naturals. Go's `int`/`int64` overflow and negative counts are out of scope.
- The database schema is not part of this model. `AddRotation` never fails, because foreign keys and unique constraints are not modelled. `Storage.AddEntity` assumes the entity identifier is the table's primary key, so reuse is refused.
- Transport errors, such as a lost connection or a failed query or exec, are not modelled for these calls. In the code each returns the error with the store unchanged. The model has no failure input for them, so its contracts say these calls never fail for that reason:
  - `AddBanner`/`AddSlot`/`AddGroup`, the insert (internal/storage/database.go:150). `App.AddEntity` succeeds for every fresh identifier.
  - `GetBanner`/`GetSlot`/`GetGroup`, the query (internal/storage/database.go:158-161).
  - `GetRotationID`, the query (internal/storage/database.go:117-120). This also covers its uses in `GetRotation`, `GetRotationStats`, `AddShow` and `AddClick`.
  - `GetRotation`, its second query (internal/storage/database.go:398-401).
  - `GetRotationStats`, the event query (internal/storage/database.go:428-436).
  - `DeleteRotation`, the exec and the affected-row count (internal/storage/database.go:372-380).
  - `AddShow`/`AddClick`, the counter update (internal/storage/database.go:463-474).
  - Only the event insert failure inside `AddShow`/`AddClick` is an input.
- `Clicks <= Shows` is expected of the data but nothing enforces it, so it is not stated.
- The HTTP layer, logging, configuration and version printing are left out. So are the application's pass-throughs for rotations, stats and entity deletion. They return the store's error unchanged. One exception is `App.AddRotation` (internal/app/app.go:216-230): on an error it returns an empty `types.Rotation{}` instead of the filled rotation the store returns (internal/storage/database.go:357-363).
- LegacyBandit.Ucb1: requires every pointer in the slice to be non-nil. A nil element would panic on `banner.Shows`, and the model does not represent that panic.
- Storage.GetAllRotations: states which rotations are returned, not their order or how often each appears.
- Storage.GetRotationStats: states which event types occur for the rotation, not their order or count. Exact appends are stated by `StoreProperties.RecordAccounting`.
- App.ChooseBannerAccounting: covers only fault-free calls and assumes at most one live row per key (`StoreProperties.UniqueLive`). The store does not enforce this; when it fails, the show lands on the first live row with the winner's key. Faulty calls are covered by `App.ChooseBanner`.

=== FILE: app.dfy ===
/** The application layer (internal/app/app.go): it owns one rotator object
    and one store, generates identifiers for new entities, and coordinates
    "choose a banner": read the trial count, read the candidates, load the
    rotator, rotate, then record a show for the winner. Logging is not
    modelled. */
module App {
  import opened Wrappers
  import opened Entities
  import Storage
  import StoreProperties
  import opened Bandit

  /** The `App` struct's state: the rotator keeps the candidates of its last
      `Load` between calls; the store is the database. */
  datatype AppState = AppState(rotator: MultiArmedBandit, store: Storage.Store)

  /** The application after a call together with what the call returned. */
  datatype Reply<T> = Reply(app: AppState, result: Result<T, Error>)

  /** Which store calls of one `ChooseBanner` fail for reasons outside the
      model (connection loss, timeouts, cancelled contexts). */
  datatype Faults = Faults(totalFails: bool, listFails: bool, appendFails: bool)

  /** `AddBanner` / `AddSlot` / `AddGroup`. `generated` is the outcome of
      `uuid.NewRandom`: `None` when the generator failed. */
  function AddEntity(app: AppState, kind: Storage.Kind, description: string, generated: Option<Uuid>): (r: Reply<Entity>)
    ensures generated.None? ==> r == Reply(app, Err(RandomSourceFailure))
    ensures r.result.Err? ==> r.app == app
    ensures r.result.Ok? <==> generated.Some? && generated.value !in Storage.TableOf(app.store, kind)
    ensures r.result.Ok? ==>
      && r.result.value == Entity(generated.value, description)
      && GetEntity(r.app, kind, generated.value) == Ok(Entity(generated.value, description))
      && r.app.rotator == app.rotator
  {
    match generated
    case None => Reply(app, Err(RandomSourceFailure))
    case Some(id) =>
      var e := Entity(id, description);
      var step := Storage.AddEntity(app.store, kind, e);
      if step.result.Err? then Reply(app.(store := step.store), Err(step.result.error))
      else Reply(app.(store := step.store), Ok(e))
  }

  /** `GetBanner` / `GetSlot` / `GetGroup`: the store's answer, unchanged. */
  function GetEntity(app: AppState, kind: Storage.Kind, id: Uuid): (r: Result<Entity, Error>)
    ensures r.Ok? <==> id in Storage.TableOf(app.store, kind) && !Storage.TableOf(app.store, kind)[id].deleted
    ensures r.Ok? ==> r.value == Entity(id, Storage.TableOf(app.store, kind)[id].description)
    ensures r.Err? ==> r.error == NoRows
  {
    Storage.GetEntity(app.store, kind, id)
  }

  /** `RegisterClick`: the store's `AddClick`, with its error passed through. */
  function RegisterClick(app: AppState, key: Key, appendFails: bool): (r: Reply<()>)
    ensures r.app.store == Storage.AddClick(app.store, key, appendFails).store
    ensures r.result == Storage.AddClick(app.store, key, appendFails).result
    ensures r.app.rotator == app.rotator
  {
    var step := Storage.AddClick(app.store, key, appendFails);
    Reply(app.(store := step.store), step.result)
  }

  /** `ChooseBanner`. The candidates and the trial count are the whole
      store's; `slotId` and `groupId` are only logged. The show is recorded
      against the winner's own key, and the rotation returned is the one the
      rotator chose, read before its show was counted. */
  function ChooseBanner(app: AppState, f: Formula, slotId: Uuid, groupId: Uuid, faults: Faults): (r: Reply<Rotation>)
    ensures faults.totalFails || faults.listFails ==> r == Reply(app, Err(StoreUnavailable))
    ensures r.result.Err? && !faults.appendFails ==> r.app.store == app.store
    ensures r.result.Ok? ==>
      && !faults.totalFails && !faults.listFails && !faults.appendFails
      && Storage.LiveShows(r.app.store.rotations) == Storage.LiveShows(app.store.rotations) + 1
      && |r.app.store.events| == |app.store.events| + 1
      && r.app.store.events[..|app.store.events|] == app.store.events
      && r.app.store.events[|app.store.events|].eventType == ShowEvent
  {
    match Storage.GetTotalShows(app.store, faults.totalFails)
    case Err(e) => Reply(app, Err(e))
    case Ok(trials) =>
      match Storage.GetAllRotations(app.store, faults.listFails)
      case Err(e) => Reply(app, Err(e))
      case Ok(rotations) =>
        var rotator := Load(app.rotator, rotations, trials);
        var toShow := Rotate(rotator, f);
        var shown := Storage.AddShow(app.store, KeyOf(toShow), faults.appendFails);
        var app' := AppState(rotator, shown.store);
        if shown.result.Err? then Reply(app', Err(shown.result.error))
        else
          StoreProperties.ShowOnce(app.store, KeyOf(toShow));
          Reply(app', Ok(toShow))
  }

  /** The caller's slot and group have no influence on the outcome. */
  lemma ChooseBannerIgnoresSlotAndGroup(app: AppState, f: Formula, slot1: Uuid, group1: Uuid,
                                        slot2: Uuid, group2: Uuid, faults: Faults)
    ensures ChooseBanner(app, f, slot1, group1, faults) == ChooseBanner(app, f, slot2, group2, faults)
  {
  }

  /** Whatever the rotator held from an earlier call is overwritten by the
      `Load`, so only the store decides the outcome. */
  lemma ChooseBannerIgnoresRotatorState(app1: AppState, app2: AppState, f: Formula,
                                        slotId: Uuid, groupId: Uuid, faults: Faults)
    requires app1.store == app2.store
    ensures ChooseBanner(app1, f, slotId, groupId, faults).result
         == ChooseBanner(app2, f, slotId, groupId, faults).result
    ensures ChooseBanner(app1, f, slotId, groupId, faults).app.store
         == ChooseBanner(app2, f, slotId, groupId, faults).app.store
  {
  }

  /** With no non-deleted rotation the rotator returns the zero rotation,
      recording a show for its nil key finds no row, and the call fails
      without touching the store. */
  lemma ChooseBannerNoCandidates(app: AppState, f: Formula, slotId: Uuid, groupId: Uuid, faults: Faults)
    requires forall i :: 0 <= i < |app.store.rotations| ==> app.store.rotations[i].deleted
    ensures ChooseBanner(app, f, slotId, groupId, faults).result.Err?
    ensures ChooseBanner(app, f, slotId, groupId, faults).app.store == app.store
    ensures !faults.totalFails && !faults.listFails ==>
      ChooseBanner(app, f, slotId, groupId, faults).result == Err(NoRows)
  {
    Storage.LiveRotationsEmpty(app.store.rotations);
  }

  /** A non-empty candidate list whenever some key has a non-deleted row. */
  lemma LiveRowHasCandidate(rows: seq<Storage.RotationRow>, i: nat)
    requires i < |rows| && !rows[i].deleted
    ensures |Storage.LiveRotations(rows)| > 0
  {
    assert Storage.View(rows[i]) in Storage.LiveRotations(rows);
  }

  /** No faults at all. */
  const NoFaults := Faults(false, false, false)

  /** A choice whose reads succeed, unfolded: UCB1 over the non-deleted
      rotations with their total shows as trials, then one show for the
      winner's key. */
  lemma ChooseBannerSteps(app: AppState, f: Formula, slotId: Uuid, groupId: Uuid, appendFails: bool)
    ensures var rows := app.store.rotations;
      var w := Ucb1(f, Storage.LiveRotations(rows), Storage.LiveShows(rows));
      var shown := Storage.AddShow(app.store, KeyOf(w), appendFails);
      var r := ChooseBanner(app, f, slotId, groupId, Faults(false, false, appendFails));
      && r.app.store == shown.store
      && (shown.result.Ok? ==> r.result == Ok(w))
      && (shown.result.Err? ==> r.result == Err(shown.result.error))
  {
    Storage.LiveShowsIsSumOfLive(app.store.rotations);
  }

  /** With one non-deleted row per key, the lookup of a candidate's key
      finds the very row the candidate was read from. */
  lemma CandidateRowIsFound(st: Storage.Store, w: Rotation)
    requires StoreProperties.UniqueLive(st.rotations)
    requires w in Storage.LiveRotations(st.rotations)
    ensures Storage.GetRotationId(st, KeyOf(w)).Ok?
    ensures Storage.View(st.rotations[Storage.GetRotationId(st, KeyOf(w)).value]) == w
  {
    var rows := st.rotations;
    var j :| 0 <= j < |rows| && !rows[j].deleted && Storage.View(rows[j]) == w;
    assert Storage.IsLive(rows[j], KeyOf(w));
    var i := Storage.GetRotationId(st, KeyOf(w)).value;
    assert rows[j].key == KeyOf(w) && rows[i].key == KeyOf(w);
  }

  /** With a non-negative bound and a non-deleted rotation, the rotator's
      winner is one of the loaded candidates. */
  lemma WinnerIsCandidate(f: Formula, rows: seq<Storage.RotationRow>, i: nat)
    requires NonNegative(f)
    requires i < |rows| && !rows[i].deleted
    ensures Ucb1(f, Storage.LiveRotations(rows), Storage.LiveShows(rows)) in Storage.LiveRotations(rows)
  {
    var candidates := Storage.LiveRotations(rows);
    LiveRowHasCandidate(rows, i);
    var k := Ucb1ChoosesLastMax(f, candidates, Storage.LiveShows(rows));
    assert candidates[k] in candidates;
  }

  /** A candidate's key always has a non-deleted row to find. */
  lemma CandidateKeyIsFound(st: Storage.Store, w: Rotation)
    requires w in Storage.LiveRotations(st.rotations)
    ensures Storage.GetRotationId(st, KeyOf(w)).Ok?
  {
    var rows := st.rotations;
    var j :| 0 <= j < |rows| && !rows[j].deleted && Storage.View(rows[j]) == w;
    assert Storage.IsLive(rows[j], KeyOf(w));
  }

  /** Without faults and with a non-negative bound, a choice succeeds as
      soon as one rotation is not deleted: the winner is then one of the
      candidates, so its key has a row to count the show on. */
  lemma ChooseBannerSucceeds(app: AppState, f: Formula, slotId: Uuid, groupId: Uuid, i: nat)
    requires NonNegative(f)
    requires i < |app.store.rotations| && !app.store.rotations[i].deleted
    ensures ChooseBanner(app, f, slotId, groupId, NoFaults).result.Ok?
    ensures ChooseBanner(app, f, slotId, groupId, NoFaults).result.value in Storage.LiveRotations(app.store.rotations)
  {
    var rows := app.store.rotations;
    var w := Ucb1(f, Storage.LiveRotations(rows), Storage.LiveShows(rows));
    ChooseBannerSteps(app, f, slotId, groupId, false);
    WinnerIsCandidate(f, rows, i);
    CandidateKeyIsFound(app.store, w);
    assert Storage.AddShow(app.store, KeyOf(w), false).result.Ok?;
  }

  /** The one error after which the store has changed: the reads succeed,
      the winner's show is counted, and then the event insert fails. The
      call reports the failure, the show stays counted and no event is
      logged. */
  lemma ChooseBannerAppendFails(app: AppState, f: Formula, slotId: Uuid, groupId: Uuid, live: nat)
    requires NonNegative(f)
    requires live < |app.store.rotations| && !app.store.rotations[live].deleted
    ensures var r := ChooseBanner(app, f, slotId, groupId, Faults(false, false, true));
      && r.result == Err(StoreUnavailable)
      && r.app.store.events == app.store.events
      && Storage.LiveShows(r.app.store.rotations) == Storage.LiveShows(app.store.rotations) + 1
  {
    var st := app.store;
    var rows := st.rotations;
    var w := Ucb1(f, Storage.LiveRotations(rows), Storage.LiveShows(rows));
    ChooseBannerSteps(app, f, slotId, groupId, true);
    WinnerIsCandidate(f, rows, live);
    CandidateKeyIsFound(st, w);
    StoreProperties.RecordAccounting(st, KeyOf(w), ShowEvent, true);
    assert Storage.AddShow(st, KeyOf(w), true) == Storage.Record(st, KeyOf(w), ShowEvent, true);
  }

  /** A fault-free choice, on a store with one non-deleted rotation per key,
      a non-negative bound and at least one non-deleted rotation: it
      succeeds; the winner is a candidate with the greatest score; exactly
      its row gains one show; one show event for that row is appended; and
      the rotation returned carries the show count read before the
      increment. */
  lemma ChooseBannerAccounting(app: AppState, f: Formula, slotId: Uuid, groupId: Uuid, live: nat)
    requires NonNegative(f)
    requires StoreProperties.UniqueLive(app.store.rotations)
    requires live < |app.store.rotations| && !app.store.rotations[live].deleted
    ensures ChooseBanner(app, f, slotId, groupId, NoFaults).result.Ok?
    ensures var r := ChooseBanner(app, f, slotId, groupId, NoFaults);
      var rows := app.store.rotations;
      var candidates := Storage.LiveRotations(rows);
      var w := r.result.value;
      var i := Storage.GetRotationId(app.store, KeyOf(w)).value;
      && Storage.GetRotationId(app.store, KeyOf(w)).Ok?
      && w in candidates
      && (forall j :: 0 <= j < |candidates| ==>
            Confidence(f, candidates[j], Storage.LiveShows(rows)) <= Confidence(f, w, Storage.LiveShows(rows)))
      && Storage.View(rows[i]) == w
      && |r.app.store.rotations| == |rows|
      && r.app.store.rotations[i] == rows[i].(shows := w.shows + 1)
      && (forall j :: 0 <= j < |rows| && j != i ==> r.app.store.rotations[j] == rows[j])
      && r.app.store.events == app.store.events + [Storage.EventRow(i, ShowEvent)]
  {
    var st := app.store;
    var rows := st.rotations;
    var candidates := Storage.LiveRotations(rows);
    var trials := Storage.LiveShows(rows);
    ChooseBannerSucceeds(app, f, slotId, groupId, live);
    ChooseBannerSteps(app, f, slotId, groupId, false);
    var w := Ucb1(f, candidates, trials);
    Ucb1IsMaximal(f, candidates, trials);
    CandidateRowIsFound(st, w);
    var r := ChooseBanner(app, f, slotId, groupId, NoFaults);
    var i := Storage.GetRotationId(st, KeyOf(w)).value;
    assert r.result == Ok(w);
    assert r.app.store == Storage.AddShow(st, KeyOf(w), false).store;
    assert r.app.store.rotations[i] == rows[i].(shows := rows[i].shows + 1);
    assert r.app.store.events == st.events + [Storage.EventRow(i, ShowEvent)];
  }
}

=== FILE: argmax.dfy ===
/** The selection scan both UCB1 implementations share: walk the candidates
    left to right, keep a running maximum that starts at 0, and let a
    candidate replace the current choice when its score is greater than OR
    EQUAL to that maximum. Scores are given as a sequence; the scan returns the
    position of the chosen candidate, or `None` when no candidate ever reached
    the running maximum (the Go code's zero value / nil pointer). */
module ArgMax {
  import opened Wrappers

  /** Every score at or after position `from` is strictly below `bound`. */
  ghost predicate AllBelow(scores: seq<real>, from: nat, bound: real) {
    forall j :: from <= j < |scores| ==> scores[j] < bound
  }

  /** Reference definition of the choice: `k` is the LAST position at or
      after `from` whose score is maximal among the scores at or after `from`. */
  ghost predicate IsLastMaxFrom(scores: seq<real>, from: nat, k: nat) {
    && from <= k < |scores|
    && (forall j :: from <= j < |scores| ==> scores[j] <= scores[k])
    && (forall j :: k < j < |scores| ==> scores[j] < scores[k])
  }

  ghost predicate IsLastMax(scores: seq<real>, k: nat) {
    IsLastMaxFrom(scores, 0, k)
  }

  /** The scan from position `i` on, with running maximum `best` and current
      choice `chosen`. */
  function ScanFrom(scores: seq<real>, i: nat, best: real, chosen: Option<nat>): (k: Option<nat>)
    requires i <= |scores|
    requires chosen.Some? ==> chosen.value < i
    ensures k.Some? ==> k.value < |scores|
    ensures k != chosen ==> k.Some? && i <= k.value && scores[k.value] >= best
    decreases |scores| - i
  {
    if i == |scores| then chosen
    else if scores[i] >= best then ScanFrom(scores, i + 1, scores[i], Some(i))
    else ScanFrom(scores, i + 1, best, chosen)
  }

  /** The whole scan: running maximum 0, nothing chosen yet. */
  function LastMax(scores: seq<real>): (k: Option<nat>)
    ensures k.Some? ==> k.value < |scores| && scores[k.value] >= 0.0
    ensures |scores| == 0 ==> k == None
  {
    ScanFrom(scores, 0, 0.0, None)
  }

  /** The scan from `i` keeps its current choice exactly when every remaining
      score is below the running maximum, and otherwise ends on the last
      maximal remaining position. */
  lemma {:induction false} ScanFromFindsLastMax(scores: seq<real>, i: nat, best: real, chosen: Option<nat>)
    requires i <= |scores|
    requires chosen.Some? ==> chosen.value < i
    ensures AllBelow(scores, i, best) ==> ScanFrom(scores, i, best, chosen) == chosen
    ensures !AllBelow(scores, i, best) ==>
      && ScanFrom(scores, i, best, chosen).Some?
      && IsLastMaxFrom(scores, i, ScanFrom(scores, i, best, chosen).value)
    decreases |scores| - i
  {
    if i < |scores| {
      if scores[i] >= best {
        ScanFromFindsLastMax(scores, i + 1, scores[i], Some(i));
      } else {
        ScanFromFindsLastMax(scores, i + 1, best, chosen);
        assert AllBelow(scores, i, best) <==> AllBelow(scores, i + 1, best);
      }
    }
  }

  /** At most one position is the last maximal one. */
  lemma LastMaxFromUnique(scores: seq<real>, from: nat, k1: nat, k2: nat)
    requires IsLastMaxFrom(scores, from, k1) && IsLastMaxFrom(scores, from, k2)
    ensures k1 == k2
  {
    assert scores[k1] <= scores[k2] && scores[k2] <= scores[k1];
  }

  /** The scan chooses something exactly when some score is non-negative, and
      then it chooses position `k` exactly when `k` is the last maximal one. */
  lemma LastMaxIsLastArgMax(scores: seq<real>)
    ensures LastMax(scores).Some? <==> !AllBelow(scores, 0, 0.0)
    ensures forall k: nat :: LastMax(scores) == Some(k) <==> IsLastMax(scores, k) && scores[k] >= 0.0
  {
    ScanFromFindsLastMax(scores, 0, 0.0, None);
    forall k: nat | IsLastMax(scores, k) && scores[k] >= 0.0
      ensures LastMax(scores) == Some(k)
    {
      LastMaxFromUnique(scores, 0, k, LastMax(scores).value);
    }
  }
}

=== FILE: bandit.dfy ===
/** The live selection policy (internal/rotators/mab/bandit.go): UCB1 over
    value-typed rotations with +1 smoothing, and the stateful
    `MultiArmedBandit` wrapper the application loads before each choice. */
module Bandit {
  import opened Wrappers
  import opened Entities
  import opened ArgMax

  /** The floating-point UCB1 bound `clicks / n + sqrt(2 * ln(t) / n)`,
      evaluated at `(n, clicks, t)`. Square root, logarithm and rounding are
      not modelled: the bound is a parameter of every operation that scores. */
  type Formula = (nat, nat, nat) -> real

  /** The real bound is never negative (clicks >= 0, t >= 1, the root >= 0). */
  ghost predicate NonNegative(f: Formula) {
    forall n: nat, c: nat, t: nat :: f(n, c, t) >= 0.0
  }

  /** The score of one rotation: both the show count and the trial count are
      smoothed by +1, so an unshown rotation and a first-ever call are finite. */
  function Confidence(f: Formula, r: Rotation, trials: nat): real {
    f(r.shows + 1, r.clicks, trials + 1)
  }

  function Scores(f: Formula, rs: seq<Rotation>, trials: nat): (s: seq<real>)
    ensures |s| == |rs|
    ensures forall i :: 0 <= i < |rs| ==> s[i] == Confidence(f, rs[i], trials)
  {
    seq(|rs|, i requires 0 <= i < |rs| => Confidence(f, rs[i], trials))
  }

  /** UCB1 selection: the last candidate with the greatest score, or the zero
      rotation when no candidate reaches the initial maximum 0. */
  function Ucb1(f: Formula, rs: seq<Rotation>, trials: nat): (r: Rotation)
    ensures rs == [] ==> r == ZeroRotation
    ensures r == ZeroRotation || r in rs
  {
    match LastMax(Scores(f, rs, trials))
    case None => ZeroRotation
    case Some(k) => rs[k]
  }

  /** With a non-negative bound and at least one candidate, UCB1 returns the
      candidate at the last position whose score is maximal. */
  lemma Ucb1ChoosesLastMax(f: Formula, rs: seq<Rotation>, trials: nat) returns (k: nat)
    requires NonNegative(f)
    requires |rs| > 0
    ensures k < |rs| && Ucb1(f, rs, trials) == rs[k]
    ensures forall j :: 0 <= j < |rs| ==> Confidence(f, rs[j], trials) <= Confidence(f, rs[k], trials)
    ensures forall j :: k < j < |rs| ==> Confidence(f, rs[j], trials) < Confidence(f, rs[k], trials)
  {
    var scores := Scores(f, rs, trials);
    LastMaxIsLastArgMax(scores);
    assert scores[0] >= 0.0;
    k := LastMax(scores).value;
  }

  /** The chosen rotation scores at least as high as every candidate. */
  lemma Ucb1IsMaximal(f: Formula, rs: seq<Rotation>, trials: nat)
    requires NonNegative(f)
    requires |rs| > 0
    ensures Ucb1(f, rs, trials) in rs
    ensures forall j :: 0 <= j < |rs| ==>
      Confidence(f, rs[j], trials) <= Confidence(f, Ucb1(f, rs, trials), trials)
  {
    var k := Ucb1ChoosesLastMax(f, rs, trials);
  }

  /** The score reads nothing of a rotation but its two counters, so when all
      candidates have the same counters the last candidate is returned. */
  lemma Ucb1EqualCountersPicksLast(f: Formula, rs: seq<Rotation>, trials: nat)
    requires NonNegative(f)
    requires |rs| > 0
    requires forall i :: 0 <= i < |rs| ==> rs[i].shows == rs[0].shows && rs[i].clicks == rs[0].clicks
    ensures Ucb1(f, rs, trials) == rs[|rs| - 1]
  {
    var k := Ucb1ChoosesLastMax(f, rs, trials);
    assert Confidence(f, rs[|rs| - 1], trials) == Confidence(f, rs[k], trials);
  }

  /** `MultiArmedBandit`: the rotator object the application keeps, holding the
      candidates and trial count of the latest `Load`. */
  datatype MultiArmedBandit = MultiArmedBandit(bannersDatas: seq<Rotation>, trials: nat)

  /** `Load` overwrites both fields. */
  function Load(m: MultiArmedBandit, rotations: seq<Rotation>, trials: nat): MultiArmedBandit {
    MultiArmedBandit(rotations, trials)
  }

  /** `Rotate` runs UCB1 on whatever was loaded last. */
  function Rotate(m: MultiArmedBandit, f: Formula): Rotation {
    Ucb1(f, m.bannersDatas, m.trials)
  }

  /** Loading forgets every earlier state, and rotating right after a load is
      UCB1 on the loaded arguments. */
  lemma RotateAfterLoad(m1: MultiArmedBandit, m2: MultiArmedBandit, f: Formula,
                        rotations: seq<Rotation>, trials: nat)
    ensures Load(m1, rotations, trials) == Load(m2, rotations, trials)
    ensures Rotate(Load(m1, rotations, trials), f) == Ucb1(f, rotations, trials)
  {
  }
}

=== FILE: entities.dfy ===
/** The entities shared by storage, the selection policy and the application
    layer (internal/types/entities.go). */
module Entities {

  /** An opaque identifier (Go `uuid.UUID`). Only equality matters to the
      model; `NilUuid` stands for the all-zero UUID of a zero-valued struct. */
  type Uuid = nat

  const NilUuid: Uuid := 0

  /** Banner, Slot and Group share one shape: an identifier and a description. */
  datatype Entity = Entity(id: Uuid, description: string)

  /** The natural key of a rotation: which banner is shown in which slot to
      which group. */
  datatype Key = Key(bannerId: Uuid, slotId: Uuid, groupId: Uuid)

  /** `types.Rotation`: a key with its show and click counters. Storage never
      fills `rotationId`, so every rotation the store hands out carries 0. */
  datatype Rotation = Rotation(rotationId: int, bannerId: Uuid, slotId: Uuid, groupId: Uuid,
                               shows: nat, clicks: nat)

  /** The zero value `types.Rotation{}`. */
  const ZeroRotation: Rotation := Rotation(0, NilUuid, NilUuid, NilUuid, 0, 0)

  function KeyOf(r: Rotation): Key {
    Key(r.bannerId, r.slotId, r.groupId)
  }

  /** The two event types written to the audit log ("show" and "click"). */
  datatype EventType = ShowEvent | ClickEvent

  /** The error values the core can return.
      - NoRows: a single-row query found nothing (`sql.ErrNoRows`);
      - NoRowWasAffected: an update inside a deletion transaction touched no row;
      - NoRotationDeleted: DeleteRotation touched no row;
      - DuplicateKey: an insert reused an identifier already in its table;
      - StoreUnavailable: a transport or transaction failure of the database;
      - RandomSourceFailure: the UUID generator failed. */
  datatype Error =
    | NoRows
    | NoRowWasAffected
    | NoRotationDeleted
    | DuplicateKey
    | StoreUnavailable
    | RandomSourceFailure
}

=== FILE: legacy_bandit.dfy ===
/** The earlier selection policy (internal/mab/bandit.go): UCB1 over a slice
    of POINTERS to banner records. It clamps a zero trial count and a zero
    show count to 1 instead of smoothing, and increments the winner's show
    counter through its pointer before returning it.

    Pointers are modelled explicitly: `heap` holds the records, a pointer is a
    position in `heap`, and the slice is a sequence of pointers (two entries
    may alias the same record). */
module LegacyBandit {
  import opened Wrappers
  import opened Entities
  import opened ArgMax
  import Bandit

  /** `mab.BannerData`. */
  datatype BannerData = BannerData(id: Uuid, groupId: Uuid, slotId: Uuid,
                                   shows: nat, clicks: nat, description: string)

  type Heap = seq<BannerData>

  type Ptr = nat

  /** Every pointer in the slice is non-nil (points into the heap). */
  predicate ValidPtrs(heap: Heap, banners: seq<Ptr>) {
    forall i :: 0 <= i < |banners| ==> banners[i] < |heap|
  }

  /** The call either returns a pointer with the heap it leaves behind, or
      panics dereferencing the nil pointer it started with. */
  datatype Outcome = Chosen(ptr: Ptr, heap: Heap) | NilDereference

  /** The clamp applied both to the trial count and to each show count. */
  function AtLeastOne(n: nat): (m: nat)
    ensures m >= 1
    ensures n >= 1 ==> m == n
  {
    if n == 0 then 1 else n
  }

  /** The score of one record against an already clamped trial count. */
  function Confidence(f: Bandit.Formula, b: BannerData, trials: nat): real {
    f(AtLeastOne(b.shows), b.clicks, trials)
  }

  function Scores(f: Bandit.Formula, heap: Heap, banners: seq<Ptr>, trials: nat): (s: seq<real>)
    requires ValidPtrs(heap, banners)
    ensures |s| == |banners|
    ensures forall i :: 0 <= i < |banners| ==> s[i] == Confidence(f, heap[banners[i]], trials)
  {
    seq(|banners|, i requires 0 <= i < |banners| => Confidence(f, heap[banners[i]], trials))
  }

  /** Legacy UCB1: choose the last maximal pointer, then `Shows += 1` on the
      record it points to. */
  function Ucb1(f: Bandit.Formula, heap: Heap, banners: seq<Ptr>, trials: nat): (r: Outcome)
    requires ValidPtrs(heap, banners)
    ensures banners == [] ==> r == NilDereference
    ensures r.Chosen? ==>
      && r.ptr in banners
      && |r.heap| == |heap|
      && r.heap[r.ptr] == heap[r.ptr].(shows := heap[r.ptr].shows + 1)
      && (forall p :: 0 <= p < |heap| && p != r.ptr ==> r.heap[p] == heap[p])
  {
    var t := AtLeastOne(trials);
    match LastMax(Scores(f, heap, banners, t))
    case None => NilDereference
    case Some(k) =>
      var p := banners[k];
      Chosen(p, heap[p := heap[p].(shows := heap[p].shows + 1)])
  }

  /** With a non-empty slice and a non-negative bound the call never panics:
      it returns the pointer at the last position whose score is maximal. */
  lemma Ucb1ChoosesLastMax(f: Bandit.Formula, heap: Heap, banners: seq<Ptr>, trials: nat) returns (k: nat)
    requires ValidPtrs(heap, banners)
    requires Bandit.NonNegative(f)
    requires |banners| > 0
    ensures k < |banners|
    ensures Ucb1(f, heap, banners, trials).Chosen?
    ensures Ucb1(f, heap, banners, trials).ptr == banners[k]
    ensures IsLastMax(Scores(f, heap, banners, AtLeastOne(trials)), k)
  {
    var scores := Scores(f, heap, banners, AtLeastOne(trials));
    LastMaxIsLastArgMax(scores);
    assert scores[0] >= 0.0;
    k := LastMax(scores).value;
  }

  /** A trial count of 0 is scored as if it were 1. */
  lemma ZeroTrialsScoredAsOne(f: Bandit.Formula, heap: Heap, banners: seq<Ptr>)
    requires ValidPtrs(heap, banners)
    ensures Ucb1(f, heap, banners, 0) == Ucb1(f, heap, banners, 1)
  {
  }

  /** A record with 0 shows is scored exactly like the same record with 1 show. */
  lemma ZeroShowsScoredAsOne(f: Bandit.Formula, b: BannerData, trials: nat)
    requires b.shows == 0
    ensures Confidence(f, b, trials) == Confidence(f, b.(shows := 1), trials)
  {
  }

  /** Of two records that differ only in having 0 and 1 shows, the later one
      in the slice is chosen, whichever order they come in: the scores tie. */
  lemma ZeroAndOneShowTieGoesLater(f: Bandit.Formula, heap: Heap, p: Ptr, q: Ptr, trials: nat)
    requires Bandit.NonNegative(f)
    requires p < |heap| && q < |heap|
    requires heap[p].clicks == heap[q].clicks
    requires heap[p].shows <= 1 && heap[q].shows <= 1
    ensures Ucb1(f, heap, [p, q], trials).Chosen?
    ensures Ucb1(f, heap, [p, q], trials).ptr == q
  {
    var k := Ucb1ChoosesLastMax(f, heap, [p, q], trials);
    var scores := Scores(f, heap, [p, q], AtLeastOne(trials));
    assert scores[0] == scores[1];
  }
}

=== FILE: storage.dfy ===
/** The rotation store (internal/storage/database.go) as a sequential state
    machine. Every operation is a pure transition from one `Store` to the
    next; an UPDATE that touches zero rows is an error result that leaves the
    store as it was.

    Tables:
    - `banners`, `slots`, `groups`: identifier -> description and deleted flag;
    - `rotations`: the rows of the rotations table in insertion order; a
      row's serial id is its position;
    - `events`: the append-only audit log, one row per show or click
      (timestamps are not modelled). */
module Storage {
  import opened Wrappers
  import opened Entities

  datatype Kind = Banners | Slots | Groups

  datatype EntityRow = EntityRow(description: string, deleted: bool)

  type Table = map<Uuid, EntityRow>

  datatype RotationRow = RotationRow(key: Key, shows: nat, clicks: nat, deleted: bool)

  datatype EventRow = EventRow(rotationId: nat, eventType: EventType)

  datatype Store = Store(banners: Table, slots: Table, groups: Table,
                         rotations: seq<RotationRow>, events: seq<EventRow>)

  /** The store after an operation together with what the operation returned. */
  datatype Step<T> = Step(store: Store, result: Result<T, Error>)

  const EmptyStore: Store := Store(map[], map[], map[], [], [])

  function TableOf(st: Store, kind: Kind): Table {
    match kind
    case Banners => st.banners
    case Slots => st.slots
    case Groups => st.groups
  }

  function WithTable(st: Store, kind: Kind, t: Table): (st': Store)
    ensures TableOf(st', kind) == t
    ensures forall other :: other != kind ==> TableOf(st', other) == TableOf(st, other)
    ensures st'.rotations == st.rotations && st'.events == st.events
  {
    match kind
    case Banners => st.(banners := t)
    case Slots => st.(slots := t)
    case Groups => st.(groups := t)
  }

  /** The column of a rotation key (`banner_id`, `slot_id` or `group_id`)
      that refers to an entity of `kind` has the value `id`. */
  predicate RefersTo(key: Key, kind: Kind, id: Uuid) {
    match kind
    case Banners => key.bannerId == id
    case Slots => key.slotId == id
    case Groups => key.groupId == id
  }

  /** The row is the non-deleted rotation for `key`. */
  predicate IsLive(row: RotationRow, key: Key) {
    !row.deleted && row.key == key
  }

  /** The `types.Rotation` a row is read back as (storage never sets the id). */
  function View(row: RotationRow): (r: Rotation)
    ensures KeyOf(r) == row.key && r.rotationId == 0
    ensures r.shows == row.shows && r.clicks == row.clicks
  {
    Rotation(0, row.key.bannerId, row.key.slotId, row.key.groupId, row.shows, row.clicks)
  }

  // ----------------------------------------------------------------------
  // Banners, slots and groups

  /** `AddBanner` / `AddSlot` / `AddGroup`: insert a new, non-deleted row. The
      identifier is the table's key, so reusing one is refused. */
  function AddEntity(st: Store, kind: Kind, e: Entity): (r: Step<()>)
    ensures e.id in TableOf(st, kind) ==> r == Step(st, Err(DuplicateKey))
    ensures e.id !in TableOf(st, kind) ==>
      && r.result == Ok(())
      && GetEntity(r.store, kind, e.id) == Ok(e)
      && (forall id :: id != e.id ==> GetEntity(r.store, kind, id) == GetEntity(st, kind, id))
      && (forall other :: other != kind ==> TableOf(r.store, other) == TableOf(st, other))
      && r.store.rotations == st.rotations && r.store.events == st.events
  {
    var t := TableOf(st, kind);
    if e.id in t then Step(st, Err(DuplicateKey))
    else Step(WithTable(st, kind, t[e.id := EntityRow(e.description, false)]), Ok(()))
  }

  /** `GetBanner` / `GetSlot` / `GetGroup`: only a row not marked deleted is found. */
  function GetEntity(st: Store, kind: Kind, id: Uuid): (r: Result<Entity, Error>)
    ensures r.Ok? <==> id in TableOf(st, kind) && !TableOf(st, kind)[id].deleted
    ensures r.Ok? ==> r.value == Entity(id, TableOf(st, kind)[id].description)
    ensures r.Err? ==> r.error == NoRows
  {
    var t := TableOf(st, kind);
    if id in t && !t[id].deleted then Ok(Entity(id, t[id].description)) else Err(NoRows)
  }

  /** Which rotation rows an UPDATE ... SET deleted=TRUE statement matches:
      every row referring to one entity, or every row with one key. Neither
      filters on `deleted`. */
  datatype Selector = ByEntity(kind: Kind, id: Uuid) | ByKey(key: Key)

  predicate Selects(sel: Selector, row: RotationRow) {
    match sel
    case ByEntity(kind, id) => RefersTo(row.key, kind, id)
    case ByKey(key) => row.key == key
  }

  /** Soft-delete every selected row; the others are untouched. */
  function SoftDeleteWhere(rows: seq<RotationRow>, sel: Selector): (r: seq<RotationRow>)
    ensures |r| == |rows|
    ensures forall i :: 0 <= i < |rows| ==>
      r[i] == if Selects(sel, rows[i]) then rows[i].(deleted := true) else rows[i]
  {
    seq(|rows|, i requires 0 <= i < |rows| =>
      if Selects(sel, rows[i]) then rows[i].(deleted := true) else rows[i])
  }

  /** `DeleteBanner` / `DeleteSlot` / `DeleteGroup`: one transaction that marks
      the entity deleted and then every rotation referring to it. The first
      update touching no row aborts; the cascade touching no row does not.
      `txFails` stands for any other failure of the transaction (begin, an
      update, the commit), after which nothing is committed. */
  function DeleteEntity(st: Store, kind: Kind, id: Uuid, txFails: bool): (r: Step<()>)
    ensures txFails ==> r == Step(st, Err(StoreUnavailable))
    ensures !txFails && id !in TableOf(st, kind) ==> r == Step(st, Err(NoRowWasAffected))
    ensures r.result.Ok? <==> !txFails && id in TableOf(st, kind)
    ensures r.result.Ok? ==>
      && id in TableOf(r.store, kind)
      && GetEntity(r.store, kind, id) == Err(NoRows)
      && (forall other :: other != id ==> GetEntity(r.store, kind, other) == GetEntity(st, kind, other))
      && (forall other :: other != kind ==> TableOf(r.store, other) == TableOf(st, other))
      && |r.store.rotations| == |st.rotations|
      && (forall i :: 0 <= i < |st.rotations| && RefersTo(st.rotations[i].key, kind, id) ==>
            r.store.rotations[i] == st.rotations[i].(deleted := true))
      && (forall i :: 0 <= i < |st.rotations| && !RefersTo(st.rotations[i].key, kind, id) ==>
            r.store.rotations[i] == st.rotations[i])
      && r.store.events == st.events
  {
    var t := TableOf(st, kind);
    if txFails then Step(st, Err(StoreUnavailable))
    else if id !in t then Step(st, Err(NoRowWasAffected))
    else
      var marked := WithTable(st, kind, t[id := t[id].(deleted := true)]);
      Step(marked.(rotations := SoftDeleteWhere(st.rotations, ByEntity(kind, id))), Ok(()))
  }

  /** `DeleteBanner`: the banner is hidden and no rotation showing it stays live. */
  function DeleteBanner(st: Store, id: Uuid, txFails: bool): (r: Step<()>)
    ensures r.result.Ok? <==> !txFails && id in st.banners
    ensures r.result.Err? ==> r.store == st
    ensures r.result.Err? ==> r.result.error == (if txFails then StoreUnavailable else NoRowWasAffected)
    ensures r.result.Ok? ==>
      && GetEntity(r.store, Banners, id) == Err(NoRows)
      && |r.store.rotations| == |st.rotations|
      && (forall i :: 0 <= i < |r.store.rotations| && r.store.rotations[i].key.bannerId == id ==>
            r.store.rotations[i].deleted)
      && r.store.events == st.events
  {
    DeleteEntity(st, Banners, id, txFails)
  }

  /** `DeleteSlot`: the slot is hidden and no rotation showing it stays live. */
  function DeleteSlot(st: Store, id: Uuid, txFails: bool): (r: Step<()>)
    ensures r.result.Ok? <==> !txFails && id in st.slots
    ensures r.result.Err? ==> r.store == st
    ensures r.result.Err? ==> r.result.error == (if txFails then StoreUnavailable else NoRowWasAffected)
    ensures r.result.Ok? ==>
      && GetEntity(r.store, Slots, id) == Err(NoRows)
      && |r.store.rotations| == |st.rotations|
      && (forall i :: 0 <= i < |r.store.rotations| && r.store.rotations[i].key.slotId == id ==>
            r.store.rotations[i].deleted)
      && r.store.events == st.events
  {
    DeleteEntity(st, Slots, id, txFails)
  }

  /** `DeleteGroup`: the group is hidden and no rotation showing it stays live. */
  function DeleteGroup(st: Store, id: Uuid, txFails: bool): (r: Step<()>)
    ensures r.result.Ok? <==> !txFails && id in st.groups
    ensures r.result.Err? ==> r.store == st
    ensures r.result.Err? ==> r.result.error == (if txFails then StoreUnavailable else NoRowWasAffected)
    ensures r.result.Ok? ==>
      && GetEntity(r.store, Groups, id) == Err(NoRows)
      && |r.store.rotations| == |st.rotations|
      && (forall i :: 0 <= i < |r.store.rotations| && r.store.rotations[i].key.groupId == id ==>
            r.store.rotations[i].deleted)
      && r.store.events == st.events
  {
    DeleteEntity(st, Groups, id, txFails)
  }

  // ----------------------------------------------------------------------
  // Rotations

  /** The lookup behind `GetRotationID`: the first row at or after `from` that
      is the non-deleted rotation for `key`. */
  function FindLive(rows: seq<RotationRow>, key: Key, from: nat): (r: Option<nat>)
    requires from <= |rows|
    ensures r.Some? ==>
      && from <= r.value < |rows|
      && IsLive(rows[r.value], key)
      && (forall j :: from <= j < r.value ==> !IsLive(rows[j], key))
    ensures r.None? ==> forall j :: from <= j < |rows| ==> !IsLive(rows[j], key)
    decreases |rows| - from
  {
    if from == |rows| then None
    else if IsLive(rows[from], key) then Some(from)
    else FindLive(rows, key, from + 1)
  }

  /** `GetRotationID`: the id of the first non-deleted row with the key, or
      `sql.ErrNoRows` when there is none. */
  function GetRotationId(st: Store, key: Key): (r: Result<nat, Error>)
    ensures r.Ok? ==>
      && r.value < |st.rotations|
      && IsLive(st.rotations[r.value], key)
      && (forall j :: 0 <= j < r.value ==> !IsLive(st.rotations[j], key))
    ensures r.Err? <==> forall j :: 0 <= j < |st.rotations| ==> !IsLive(st.rotations[j], key)
    ensures r.Err? ==> r.error == NoRows
  {
    match FindLive(st.rotations, key, 0)
    case None => Err(NoRows)
    case Some(i) => Ok(i)
  }

  /** `AddRotation`: append a row for the key with both counters at 0. No
      uniqueness check is made; see `StoreProperties.UniqueLive`. */
  function AddRotation(st: Store, key: Key): (r: Step<Rotation>)
    ensures r.result.Ok?
    ensures KeyOf(r.result.value) == key && r.result.value.shows == 0 && r.result.value.clicks == 0
    ensures |r.store.rotations| == |st.rotations| + 1
    ensures r.store.rotations[..|st.rotations|] == st.rotations
    ensures r.store.rotations[|st.rotations|] == RotationRow(key, 0, 0, false)
    ensures IsLive(r.store.rotations[|st.rotations|], key)
    ensures GetRotationId(st, key).Err? ==> GetRotation(r.store, key) == r.result
    ensures r.store.events == st.events
    ensures forall kind :: TableOf(r.store, kind) == TableOf(st, kind)
  {
    var row := RotationRow(key, 0, 0, false);
    var st' := st.(rotations := st.rotations + [row]);
    assert GetRotationId(st, key).Err? ==> FindLive(st'.rotations, key, 0) == Some(|st.rotations|) by {
      if GetRotationId(st, key).Err? {
        assert IsLive(st'.rotations[|st.rotations|], key);
        assert forall j :: 0 <= j < |st.rotations| ==> st'.rotations[j] == st.rotations[j];
      }
    }
    Step(st', Ok(View(row)))
  }

  /** `DeleteRotation`: soft-delete every row with the key, deleted or not;
      touching no row is an error. */
  function DeleteRotation(st: Store, key: Key): (r: Step<()>)
    ensures r.result.Ok? <==> exists i :: 0 <= i < |st.rotations| && st.rotations[i].key == key
    ensures r.result.Err? ==> r == Step(st, Err(NoRotationDeleted))
    ensures r.result.Ok? ==>
      && GetRotationId(r.store, key) == Err(NoRows)
      && |r.store.rotations| == |st.rotations|
      && (forall i :: 0 <= i < |st.rotations| && st.rotations[i].key != key ==>
            r.store.rotations[i] == st.rotations[i])
      && (forall i :: 0 <= i < |st.rotations| && st.rotations[i].key == key ==>
            r.store.rotations[i] == st.rotations[i].(deleted := true))
      && r.store.events == st.events
      && (forall kind :: TableOf(r.store, kind) == TableOf(st, kind))
  {
    if exists i :: 0 <= i < |st.rotations| && st.rotations[i].key == key then
      Step(st.(rotations := SoftDeleteWhere(st.rotations, ByKey(key))), Ok(()))
    else
      Step(st, Err(NoRotationDeleted))
  }

  /** `GetRotation`: the non-deleted rotation for the key, read back with its
      counters. */
  function GetRotation(st: Store, key: Key): (r: Result<Rotation, Error>)
    ensures r.Err? <==> forall j :: 0 <= j < |st.rotations| ==> !IsLive(st.rotations[j], key)
    ensures r.Err? ==> r.error == NoRows
    ensures r.Ok? ==> KeyOf(r.value) == key && r.value in LiveRotations(st.rotations)
  {
    var i :- GetRotationId(st, key);
    Ok(View(st.rotations[i]))
  }

  /** `GetAllRotations`: every non-deleted row, in table order. `fails` stands
      for a failure of the query. */
  function GetAllRotations(st: Store, fails: bool): (r: Result<seq<Rotation>, Error>)
    ensures r.Err? <==> fails
    ensures r.Err? ==> r.error == StoreUnavailable
    ensures r.Ok? ==> forall x :: x in r.value <==>
      exists i :: 0 <= i < |st.rotations| && !st.rotations[i].deleted && View(st.rotations[i]) == x
  {
    if fails then Err(StoreUnavailable) else Ok(LiveRotations(st.rotations))
  }

  function LiveRotations(rows: seq<RotationRow>): (rs: seq<Rotation>)
    ensures |rs| <= |rows|
    ensures forall i :: 0 <= i < |rows| && !rows[i].deleted ==> View(rows[i]) in rs
    ensures forall x :: x in rs ==>
      exists i :: 0 <= i < |rows| && !rows[i].deleted && View(rows[i]) == x
    decreases |rows|
  {
    if rows == [] then []
    else
      var init := rows[..|rows| - 1];
      var last := rows[|rows| - 1];
      LiveRotations(init) + (if last.deleted then [] else [View(last)])
  }

  /** What a row adds to `sum(shows) ... WHERE deleted=FALSE`. */
  function Contribution(row: RotationRow): nat {
    if row.deleted then 0 else row.shows
  }

  /** The sum of `shows` over the non-deleted rows; 0 when there are none
      (the SQL NULL of an empty sum reads as 0). */
  function LiveShows(rows: seq<RotationRow>): nat
    decreases |rows|
  {
    if rows == [] then 0
    else LiveShows(rows[..|rows| - 1]) + Contribution(rows[|rows| - 1])
  }

  /** Total shows of a sequence of rotations. */
  function SumShows(rs: seq<Rotation>): nat
    decreases |rs|
  {
    if rs == [] then 0 else SumShows(rs[..|rs| - 1]) + rs[|rs| - 1].shows
  }

  lemma SumShowsAppend(rs: seq<Rotation>, extra: seq<Rotation>)
    requires |extra| <= 1
    ensures SumShows(rs + extra) == SumShows(rs) + SumShows(extra)
  {
    if |extra| == 1 {
      assert (rs + extra)[..|rs + extra| - 1] == rs;
      assert extra[..0] == [];
    } else {
      assert rs + extra == rs;
    }
  }

  /** The summed query agrees with summing what `GetAllRotations` returns. */
  lemma {:induction false} LiveShowsIsSumOfLive(rows: seq<RotationRow>)
    ensures LiveShows(rows) == SumShows(LiveRotations(rows))
    decreases |rows|
  {
    if rows != [] {
      var init := rows[..|rows| - 1];
      var last := rows[|rows| - 1];
      LiveShowsIsSumOfLive(init);
      SumShowsAppend(LiveRotations(init), if last.deleted then [] else [View(last)]);
    }
  }

  /** `GetTotalShows`: the trial count the policy uses. */
  function GetTotalShows(st: Store, fails: bool): (r: Result<nat, Error>)
    ensures r.Err? <==> fails
    ensures r.Err? ==> r.error == StoreUnavailable
    ensures r.Ok? ==> r.value == SumShows(LiveRotations(st.rotations))
    ensures r.Ok? && (forall i :: 0 <= i < |st.rotations| ==> st.rotations[i].deleted) ==> r.value == 0
  {
    LiveShowsIsSumOfLive(st.rotations);
    LiveRotationsEmpty(st.rotations);
    if fails then Err(StoreUnavailable) else Ok(LiveShows(st.rotations))
  }

  lemma LiveRotationsEmpty(rows: seq<RotationRow>)
    ensures (forall i :: 0 <= i < |rows| ==> rows[i].deleted) ==> LiveRotations(rows) == []
  {
    if LiveRotations(rows) != [] {
      var x := LiveRotations(rows)[0];
      assert x in LiveRotations(rows);
    }
  }

  // ----------------------------------------------------------------------
  // Shows, clicks and the event log

  /** `AddEventTimestamp`: append one event row; `fails` stands for a failure
      of the insert, which appends nothing. */
  function AddEventTimestamp(st: Store, eventType: EventType, rotationId: nat, fails: bool): (r: Step<()>)
    ensures fails ==> r.store == st && r.result == Err(StoreUnavailable)
    ensures !fails ==>
      && r.result == Ok(())
      && r.store.rotations == st.rotations
      && (forall kind :: TableOf(r.store, kind) == TableOf(st, kind))
      && EventsOf(r.store.events, rotationId) == EventsOf(st.events, rotationId) + [eventType]
      && (forall other: nat :: other != rotationId ==>
            EventsOf(r.store.events, other) == EventsOf(st.events, other))
  {
    if fails then Step(st, Err(StoreUnavailable))
    else
      var e := EventRow(rotationId, eventType);
      assert (st.events + [e])[..|st.events|] == st.events;
      Step(st.(events := st.events + [e]), Ok(()))
  }

  /** The counter an event of this type increments. */
  function Increment(row: RotationRow, eventType: EventType): (r: RotationRow)
    ensures r.key == row.key && r.deleted == row.deleted
    ensures r.shows == row.shows + (if eventType == ShowEvent then 1 else 0)
    ensures r.clicks == row.clicks + (if eventType == ClickEvent then 1 else 0)
  {
    match eventType
    case ShowEvent => row.(shows := row.shows + 1)
    case ClickEvent => row.(clicks := row.clicks + 1)
  }

  /** The shape `AddShow` and `AddClick` share: look the rotation up, increment
      its counter, then append the event. The increment is a separate
      statement, so it stays even when the append fails. */
  function Record(st: Store, key: Key, eventType: EventType, appendFails: bool): (r: Step<()>)
    ensures GetRotationId(st, key).Err? ==> r == Step(st, Err(NoRows))
    ensures GetRotationId(st, key).Ok? ==>
      var i := GetRotationId(st, key).value;
      && |r.store.rotations| == |st.rotations|
      && r.store.rotations[i] == Increment(st.rotations[i], eventType)
      && (forall j :: 0 <= j < |st.rotations| && j != i ==> r.store.rotations[j] == st.rotations[j])
      && r.store.events == st.events + (if appendFails then [] else [EventRow(i, eventType)])
      && r.result == (if appendFails then Err(StoreUnavailable) else Ok(()))
    ensures forall kind :: TableOf(r.store, kind) == TableOf(st, kind)
  {
    match GetRotationId(st, key)
    case Err(e) => Step(st, Err(e))
    case Ok(i) =>
      var bumped := st.(rotations := st.rotations[i := Increment(st.rotations[i], eventType)]);
      AddEventTimestamp(bumped, eventType, i, appendFails)
  }

  /** `AddShow`: one more show for the non-deleted rotation with the key. */
  function AddShow(st: Store, key: Key, appendFails: bool): (r: Step<()>)
    ensures GetRotationId(st, key).Err? ==> r == Step(st, Err(NoRows))
    ensures GetRotationId(st, key).Ok? ==>
      var i := GetRotationId(st, key).value;
      && |r.store.rotations| == |st.rotations|
      && r.store.rotations[i] == st.rotations[i].(shows := st.rotations[i].shows + 1)
      && (forall j :: 0 <= j < |st.rotations| && j != i ==> r.store.rotations[j] == st.rotations[j])
      && r.store.events == st.events + (if appendFails then [] else [EventRow(i, ShowEvent)])
      && r.result == (if appendFails then Err(StoreUnavailable) else Ok(()))
    ensures forall kind :: TableOf(r.store, kind) == TableOf(st, kind)
  {
    Record(st, key, ShowEvent, appendFails)
  }

  /** `AddClick`: one more click for the non-deleted rotation with the key. */
  function AddClick(st: Store, key: Key, appendFails: bool): (r: Step<()>)
    ensures GetRotationId(st, key).Err? ==> r == Step(st, Err(NoRows))
    ensures GetRotationId(st, key).Ok? ==>
      var i := GetRotationId(st, key).value;
      && |r.store.rotations| == |st.rotations|
      && r.store.rotations[i] == st.rotations[i].(clicks := st.rotations[i].clicks + 1)
      && (forall j :: 0 <= j < |st.rotations| && j != i ==> r.store.rotations[j] == st.rotations[j])
      && r.store.events == st.events + (if appendFails then [] else [EventRow(i, ClickEvent)])
      && r.result == (if appendFails then Err(StoreUnavailable) else Ok(()))
    ensures forall kind :: TableOf(r.store, kind) == TableOf(st, kind)
  {
    Record(st, key, ClickEvent, appendFails)
  }

  /** The types of the events logged against one rotation id, in log order. */
  function EventsOf(events: seq<EventRow>, rotationId: nat): (r: seq<EventType>)
    ensures |r| <= |events|
    ensures forall t :: t in r <==>
      exists j :: 0 <= j < |events| && events[j].rotationId == rotationId && events[j].eventType == t
    decreases |events|
  {
    if events == [] then []
    else
      var last := events[|events| - 1];
      EventsOf(events[..|events| - 1], rotationId)
        + (if last.rotationId == rotationId then [last.eventType] else [])
  }

  /** `GetRotationStats`: the events of the non-deleted rotation with the key. */
  function GetRotationStats(st: Store, key: Key): (r: Result<seq<EventType>, Error>)
    ensures r.Err? <==> GetRotationId(st, key).Err?
    ensures r.Err? ==> r.error == NoRows
    ensures r.Ok? ==> forall t :: t in r.value <==>
      exists j :: 0 <= j < |st.events| && st.events[j].rotationId == GetRotationId(st, key).value
                  && st.events[j].eventType == t
  {
    var i :- GetRotationId(st, key);
    Ok(EventsOf(st.events, i))
  }
}

=== FILE: store_properties.dfy ===
/** Properties of the rotation store across operations: what an operation
    keeps (the history only grows), what it counts (shows, clicks, events) and
    the invariant the store relies on but does not enforce (one non-deleted
    rotation per key). */
module StoreProperties {
  import opened Wrappers
  import opened Entities
  import opened Storage

  /** At most one non-deleted row per key. `GetRotationID` silently takes the
      first match, so the store's readers assume this; nothing enforces it. */
  ghost predicate UniqueLive(rows: seq<RotationRow>) {
    forall i, j ::
      (0 <= i < |rows| && 0 <= j < |rows| && !rows[i].deleted && !rows[j].deleted
       && rows[i].key == rows[j].key) ==> i == j
  }

  /** Every event refers to an existing rotation row. */
  ghost predicate EventsReferToRows(st: Store) {
    forall k :: 0 <= k < |st.events| ==> st.events[k].rotationId < |st.rotations|
  }

  ghost predicate Valid(st: Store) {
    UniqueLive(st.rotations) && EventsReferToRows(st)
  }

  /** A row only ever gains shows, clicks and the deleted flag. */
  ghost predicate RowGrows(before: RotationRow, after: RotationRow) {
    && after.key == before.key
    && before.shows <= after.shows
    && before.clicks <= after.clicks
    && (before.deleted ==> after.deleted)
  }

  /** An entity row keeps its description and never loses the deleted flag. */
  ghost predicate TableGrows(before: Table, after: Table) {
    forall id :: id in before ==>
      && id in after
      && after[id].description == before[id].description
      && (before[id].deleted ==> after[id].deleted)
  }

  /** `after` is a possible later state of `before`: no row is removed or
      re-keyed, no counter decreases, nothing is undeleted, and the event log
      is only appended to. */
  ghost predicate Extends(before: Store, after: Store) {
    && |before.rotations| <= |after.rotations|
    && (forall i :: 0 <= i < |before.rotations| ==> RowGrows(before.rotations[i], after.rotations[i]))
    && before.events <= after.events
    && (forall kind :: TableGrows(TableOf(before, kind), TableOf(after, kind)))
  }

  lemma ExtendsTransitive(a: Store, b: Store, c: Store)
    requires Extends(a, b) && Extends(b, c)
    ensures Extends(a, c)
  {
    assert forall i :: 0 <= i < |a.rotations| ==> RowGrows(b.rotations[i], c.rotations[i]);
  }

  /** The store's writes. */
  datatype Op =
    | AddEntityOp(kind: Kind, e: Entity)
    | DeleteEntityOp(kind: Kind, id: Uuid, txFails: bool)
    | AddRotationOp(key: Key)
    | DeleteRotationOp(key: Key)
    | AddShowOp(key: Key, appendFails: bool)
    | AddClickOp(key: Key, appendFails: bool)

  function Apply(st: Store, op: Op): Store {
    match op
    case AddEntityOp(kind, e) => AddEntity(st, kind, e).store
    case DeleteEntityOp(kind, id, txFails) => DeleteEntity(st, kind, id, txFails).store
    case AddRotationOp(key) => AddRotation(st, key).store
    case DeleteRotationOp(key) => DeleteRotation(st, key).store
    case AddShowOp(key, appendFails) => AddShow(st, key, appendFails).store
    case AddClickOp(key, appendFails) => AddClick(st, key, appendFails).store
  }

  function Run(st: Store, ops: seq<Op>): Store
    decreases |ops|
  {
    if ops == [] then st else Run(Apply(st, ops[0]), ops[1..])
  }

  /** Every write only extends the store: counters never decrease and the
      event log is append-only. */
  lemma ApplyExtends(st: Store, op: Op)
    ensures Extends(st, Apply(st, op))
  {
    match op
    case AddEntityOp(kind, e) =>
      var after := AddEntity(st, kind, e).store;
      assert forall k :: TableGrows(TableOf(st, k), TableOf(after, k));
    case DeleteEntityOp(kind, id, txFails) =>
      var after := DeleteEntity(st, kind, id, txFails).store;
      assert forall k :: TableGrows(TableOf(st, k), TableOf(after, k));
    case AddRotationOp(key) =>
      var after := AddRotation(st, key).store;
      assert forall i :: 0 <= i < |st.rotations| ==> after.rotations[i] == st.rotations[i];
      assert forall k :: TableGrows(TableOf(st, k), TableOf(after, k));
    case DeleteRotationOp(key) =>
      DeleteRotationExtends(st, key);
    case AddShowOp(key, appendFails) =>
      RecordExtends(st, key, ShowEvent, appendFails);
    case AddClickOp(key, appendFails) =>
      RecordExtends(st, key, ClickEvent, appendFails);
  }

  lemma DeleteRotationExtends(st: Store, key: Key)
    ensures Extends(st, DeleteRotation(st, key).store)
  {
    var after := DeleteRotation(st, key).store;
    assert forall k :: TableGrows(TableOf(st, k), TableOf(after, k));
  }

  lemma RecordExtends(st: Store, key: Key, eventType: EventType, appendFails: bool)
    ensures Extends(st, Record(st, key, eventType, appendFails).store)
  {
    var after := Record(st, key, eventType, appendFails).store;
    assert forall k :: TableGrows(TableOf(st, k), TableOf(after, k));
  }

  /** The same holds for any sequence of writes. */
  lemma {:induction false} RunExtends(st: Store, ops: seq<Op>)
    ensures Extends(st, Run(st, ops))
    decreases |ops|
  {
    if ops == [] {
      assert forall kind :: TableGrows(TableOf(st, kind), TableOf(st, kind));
    } else {
      ApplyExtends(st, ops[0]);
      RunExtends(Apply(st, ops[0]), ops[1..]);
      ExtendsTransitive(st, Apply(st, ops[0]), Run(st, ops));
    }
  }

  /** Two row sequences in which every position is live for `key` in the same
      way give the same lookup result. */
  lemma SameLivenessSameLookup(st: Store, st': Store, key: Key)
    requires |st.rotations| == |st'.rotations|
    requires forall j :: 0 <= j < |st.rotations| ==>
      IsLive(st.rotations[j], key) == IsLive(st'.rotations[j], key)
    ensures GetRotationId(st, key) == GetRotationId(st', key)
  {
    var a := GetRotationId(st, key);
    var b := GetRotationId(st', key);
    if a.Ok? && b.Ok? {
      assert !(a.value < b.value) && !(b.value < a.value);
    }
  }

  /** Every write except a duplicate `AddRotation` keeps the store valid. */
  lemma ApplyPreservesValid(st: Store, op: Op)
    requires Valid(st)
    requires op.AddRotationOp? ==> GetRotationId(st, op.key).Err?
    ensures Valid(Apply(st, op))
  {
    match op
    case AddEntityOp(kind, e) =>
    case DeleteEntityOp(kind, id, txFails) =>
    case AddRotationOp(key) =>
      AddRotationPreservesValid(st, key);
    case DeleteRotationOp(key) =>
    case AddShowOp(key, appendFails) =>
    case AddClickOp(key, appendFails) =>
  }

  /** A first live row for a key keeps the store valid. */
  lemma AddRotationPreservesValid(st: Store, key: Key)
    requires Valid(st)
    requires GetRotationId(st, key).Err?
    ensures Valid(AddRotation(st, key).store)
  {
    var after := AddRotation(st, key).store;
    var n := |st.rotations|;
    assert forall i :: 0 <= i < n ==> after.rotations[i] == st.rotations[i];
    assert forall i :: 0 <= i < n ==> !IsLive(after.rotations[i], key);
  }

  /** Adding a rotation for a key that already has a non-deleted one breaks
      the invariant: the store does not enforce it. */
  lemma AddRotationCanDuplicate(st: Store, key: Key)
    requires GetRotationId(st, key).Ok?
    ensures !UniqueLive(AddRotation(st, key).store.rotations)
  {
    var i := GetRotationId(st, key).value;
    var rows := AddRotation(st, key).store.rotations;
    assert rows[i] == st.rotations[i];
    assert !rows[i].deleted && !rows[|st.rotations|].deleted && rows[i].key == rows[|st.rotations|].key;
  }

  /** Replacing one row changes the live sum by the difference of the two
      rows' contributions. */
  lemma {:induction false} LiveShowsUpdate(rows: seq<RotationRow>, i: nat, x: RotationRow)
    requires i < |rows|
    ensures LiveShows(rows[i := x]) + Contribution(rows[i]) == LiveShows(rows) + Contribution(x)
    decreases |rows|
  {
    var n := |rows|;
    var rows' := rows[i := x];
    if i == n - 1 {
      assert rows'[..n - 1] == rows[..n - 1];
    } else {
      assert rows'[..n - 1] == rows[..n - 1][i := x];
      LiveShowsUpdate(rows[..n - 1], i, x);
    }
  }

  lemma EventsOfAppend(events: seq<EventRow>, e: EventRow, rotationId: nat)
    ensures EventsOf(events + [e], rotationId)
         == EventsOf(events, rotationId) + (if e.rotationId == rotationId then [e.eventType] else [])
  {
    assert (events + [e])[..|events|] == events;
  }

  /** A recorded show or click leaves the key's lookup where it was, adds
      exactly the one event to the key's statistics (unless the append
      failed) and adds exactly one to the right counter. */
  lemma RecordAccounting(st: Store, key: Key, eventType: EventType, appendFails: bool)
    requires GetRotationId(st, key).Ok?
    ensures var after := Record(st, key, eventType, appendFails).store;
      && GetRotationId(after, key) == GetRotationId(st, key)
      && GetRotationStats(after, key).Ok?
      && GetRotationStats(after, key).value
         == GetRotationStats(st, key).value + (if appendFails then [] else [eventType])
      && LiveShows(after.rotations)
         == LiveShows(st.rotations) + (if eventType == ShowEvent then 1 else 0)
  {
    var i := GetRotationId(st, key).value;
    var after := Record(st, key, eventType, appendFails).store;
    SameLivenessSameLookup(st, after, key);
    LiveShowsUpdate(st.rotations, i, Increment(st.rotations[i], eventType));
    assert after.rotations == st.rotations[i := Increment(st.rotations[i], eventType)];
    if !appendFails {
      EventsOfAppend(st.events, EventRow(i, eventType), i);
    }
  }

  /** `AddShow` on a key with a non-deleted rotation: total shows +1, the
      rotation's shows +1, one more show event in its statistics. */
  lemma AddShowAccounting(st: Store, key: Key, appendFails: bool)
    requires GetRotationId(st, key).Ok?
    ensures var after := AddShow(st, key, appendFails).store;
      && GetTotalShows(after, false).Ok?
      && GetTotalShows(after, false).value == GetTotalShows(st, false).value + 1
      && GetRotation(after, key).Ok?
      && GetRotation(after, key).value.shows == GetRotation(st, key).value.shows + 1
      && GetRotation(after, key).value.clicks == GetRotation(st, key).value.clicks
      && GetRotationStats(after, key).Ok?
      && GetRotationStats(after, key).value
         == GetRotationStats(st, key).value + (if appendFails then [] else [ShowEvent])
  {
    var i := GetRotationId(st, key).value;
    var after := AddShow(st, key, appendFails).store;
    assert after == Record(st, key, ShowEvent, appendFails).store;
    RecordAccounting(st, key, ShowEvent, appendFails);
    assert GetRotationId(after, key) == Ok(i);
    assert GetRotation(after, key) == Ok(View(after.rotations[i]));
    assert GetRotation(st, key) == Ok(View(st.rotations[i]));
    assert GetTotalShows(after, false) == Ok(LiveShows(after.rotations));
    assert GetTotalShows(st, false) == Ok(LiveShows(st.rotations));
    assert LiveShows(after.rotations) == LiveShows(st.rotations) + 1;
  }

  /** `AddClick` on a key with a non-deleted rotation: the rotation's clicks
      +1, total shows unchanged, one more click event in its statistics. */
  lemma AddClickAccounting(st: Store, key: Key, appendFails: bool)
    requires GetRotationId(st, key).Ok?
    ensures var after := AddClick(st, key, appendFails).store;
      && GetTotalShows(after, false) == GetTotalShows(st, false)
      && GetRotation(after, key).Ok?
      && GetRotation(after, key).value.clicks == GetRotation(st, key).value.clicks + 1
      && GetRotation(after, key).value.shows == GetRotation(st, key).value.shows
      && GetRotationStats(after, key).Ok?
      && GetRotationStats(after, key).value
         == GetRotationStats(st, key).value + (if appendFails then [] else [ClickEvent])
  {
    var i := GetRotationId(st, key).value;
    var after := AddClick(st, key, appendFails).store;
    assert after == Record(st, key, ClickEvent, appendFails).store;
    RecordAccounting(st, key, ClickEvent, appendFails);
    assert GetRotationId(after, key) == Ok(i);
    assert GetRotation(after, key) == Ok(View(after.rotations[i]));
    assert GetRotation(st, key) == Ok(View(st.rotations[i]));
    assert GetTotalShows(after, false) == Ok(LiveShows(after.rotations));
    assert GetTotalShows(st, false) == Ok(LiveShows(st.rotations));
  }

  /** After a successful `DeleteBanner` / `DeleteSlot` / `DeleteGroup`, every
      rotation referring to the entity is gone from every read path. */
  lemma DeleteEntityCascades(st: Store, kind: Kind, id: Uuid, txFails: bool, key: Key)
    requires DeleteEntity(st, kind, id, txFails).result.Ok?
    requires RefersTo(key, kind, id)
    ensures var after := DeleteEntity(st, kind, id, txFails).store;
      && GetEntity(after, kind, id) == Err(NoRows)
      && GetRotation(after, key) == Err(NoRows)
      && GetRotationStats(after, key) == Err(NoRows)
      && (forall x :: x in GetAllRotations(after, false).value ==> !RefersTo(KeyOf(x), kind, id))
  {
  }

  /** `DeleteRotation` does not filter on the deleted flag: deleting the same
      key again succeeds and changes nothing. */
  lemma DeleteRotationTwice(st: Store, key: Key)
    requires DeleteRotation(st, key).result.Ok?
    ensures var once := DeleteRotation(st, key).store;
      DeleteRotation(once, key) == Step(once, Ok(()))
  {
    var once := DeleteRotation(st, key).store;
    var i :| 0 <= i < |st.rotations| && st.rotations[i].key == key;
    assert once.rotations[i].key == key;
    assert SoftDeleteWhere(once.rotations, ByKey(key)) == once.rotations;
  }

  /** `n` shows in a row, none of whose event appends fail. */
  function ShowTimes(st: Store, key: Key, n: nat): Store
    decreases n
  {
    if n == 0 then st else ShowTimes(AddShow(st, key, false).store, key, n - 1)
  }

  /** A single show with a successful append, stated on the two quantities
      the repeated-show lemma tracks. */
  lemma ShowOnce(st: Store, key: Key)
    requires GetRotationId(st, key).Ok?
    ensures GetRotationId(AddShow(st, key, false).store, key).Ok?
    ensures LiveShows(AddShow(st, key, false).store.rotations) == LiveShows(st.rotations) + 1
  {
    RecordAccounting(st, key, ShowEvent, false);
    assert AddShow(st, key, false) == Record(st, key, ShowEvent, false);
  }

  lemma {:induction false} ShowTimesCounts(st: Store, key: Key, n: nat)
    requires GetRotationId(st, key).Ok?
    ensures GetRotationId(ShowTimes(st, key, n), key).Ok?
    ensures LiveShows(ShowTimes(st, key, n).rotations) == LiveShows(st.rotations) + n
    decreases n
  {
    if n > 0 {
      var next := AddShow(st, key, false).store;
      ShowOnce(st, key);
      ShowTimesCounts(next, key, n - 1);
      assert ShowTimes(st, key, n) == ShowTimes(next, key, n - 1);
    }
  }

  /** From an empty store: one rotation, ten shows, total shows 10. */
  lemma TenShowsTotalTen(key: Key)
    ensures var st := AddRotation(EmptyStore, key).store;
      GetTotalShows(ShowTimes(st, key, 10), false).Ok? &&
      GetTotalShows(ShowTimes(st, key, 10), false).value == 10
  {
    var st := AddRotation(EmptyStore, key).store;
    assert GetRotationId(st, key).Ok? by {
      assert IsLive(st.rotations[0], key);
    }
    assert st.rotations == [RotationRow(key, 0, 0, false)];
    assert st.rotations[..0] == [];
    assert LiveShows(st.rotations) == LiveShows([]) + Contribution(st.rotations[0]);
    assert GetTotalShows(ShowTimes(st, key, 10), false) == Ok(LiveShows(ShowTimes(st, key, 10).rotations));
    ShowTimesCounts(st, key, 10);
  }

  /** Create a banner and a rotation for it, then delete the banner: the
      rotation and the banner can no longer be read. */
  lemma DeleteBannerScenario(st: Store, banner: Entity, slotId: Uuid, groupId: Uuid)
    requires banner.id !in st.banners
    ensures var st1 := AddEntity(st, Banners, banner);
      var key := Key(banner.id, slotId, groupId);
      var st2 := AddRotation(st1.store, key);
      var st3 := DeleteBanner(st2.store, banner.id, false);
      && st1.result.Ok? && st2.result.Ok? && st3.result.Ok?
      && GetRotation(st2.store, key).Ok?
      && GetRotation(st3.store, key) == Err(NoRows)
      && GetEntity(st3.store, Banners, banner.id) == Err(NoRows)
  {
    var st1 := AddEntity(st, Banners, banner);
    var key := Key(banner.id, slotId, groupId);
    var st2 := AddRotation(st1.store, key);
    assert IsLive(st2.store.rotations[|st1.store.rotations|], key);
    assert banner.id in TableOf(st2.store, Banners);
    DeleteEntityCascades(st2.store, Banners, banner.id, false, key);
  }
}

=== FILE: wrappers.dfy ===
/** Failure-compatible wrappers shared by the whole model: `Option` for values
    that may be absent (Go's nil / zero value) and `Result` for the Go
    `(value, error)` return pair. */
module Wrappers {

  datatype Option<+T> = None | Some(value: T)

  /** `Ok(v)` is a nil error with value `v`; `Err(e)` is a non-nil error. */
  datatype Result<+T, +E> = Ok(value: T) | Err(error: E) {

    predicate IsFailure() {
      Err?
    }

    function PropagateFailure<U>(): Result<U, E>
      requires Err?
    {
      Err(error)
    }

    function Extract(): T
      requires Ok?
    {
      value
    }
  }
}
